=== FILE: README.md ===
# Authorization of Artisan-over-HTTP calls, modelled in Dafny

The package exposes Artisan commands over HTTP. Before the framework runs a
command, the form request `ArtisanRequest` decides whether the caller may run
it. This project models that decision as Dafny functions and proves its
properties.

The decision is a fixed chain:

1. **App Engine trust.** It applies only when the `GAE_SERVICE` server
   variable is non-empty. Either check below grants access:
   - the `x-appengine-cron` header is present and `x-appengine-user-ip` is
     `0.1.0.2` or `0.1.0.1`;
   - both the `x-cloudscheduler` and `x-google-internal-skipadmincheck`
     headers are present.
2. **Credential extraction.** The token is the bearer token, as the framework
   parses it, when the configured header is exactly `Authorization` and
   that bearer value is non-empty. Otherwise it is the raw value of the
   configured header; under the default configuration with an empty bearer
   value, that is the whole `Authorization` header, scheme included.
3. **Empty token.** An empty token (PHP `empty()`: `null`, `""` or `"0"`) is
   denied.
4. **Classification.** A token with three dot-separated segments whose first
   two base64url-decode to JSON other than `null` counts as a JWT. This is
   the shape of the JWS compact serialization, section 7.1 of RFC 7515.
5. **Verification.** JWT-shaped tokens are verified as RS256 ID tokens
   against Google's published keys, and the `email` claim must be on the
   allow-list. Every other token goes to IAM `testIamPermissions`. That call
   grants access when the decoded response body is non-empty.

The verdict is `Allow`, `Deny` or `Fault`. `Fault` means an exception or
error escaped `authorize`.

The model never runs the calls it cannot see. It receives their answers as
the fields of `ArtisanRequest.Oracles`:

- the framework's bearer-token parser;
- `JWT::urlsafeB64Decode`;
- JSON parsing;
- `file_get_contents`;
- `JWK::parseKeySet`;
- `JWT::decode`;
- the HTTP client.

The bearer-token parser and JSON parsing always answer with a value. Each of
the other five answers is either a returned value or a thrown `Exception`
or `Error`. This matters because `catch (Exception $e)` does not catch an
`Error`.

Modules:

- `Php`: nullable values, `empty()`, strict `in_array`, and call outcomes.
- `PhpString`: `explode`/`implode`, with both round trips.
- `PhpJson`: JSON values as `json_decode` returns them, with `empty()`,
  property access and loose `in_array`.
- `HttpRequest`: the server variable and the header bag. The header bag
  looks names up case-insensitively and reads `_` as `-`.
- `ArtisanRequest`: constants, configuration, and the five methods.
- `AuthorizationProperties`: the lemmas.

Three places where the code is weaker than one might expect:

- Not every failure becomes a denial. The key fetch and the key-set parse
  sit outside the `try`, so a failure there escapes. The access-token
  verifier has no `try`, so any failure there escapes too. An `Error`
  escapes every `catch (Exception)`. All of these are `Fault`, never
  `Allow`.
- The IAM check looks at the whole decoded body, not at a `permissions`
  list. A `{"permissions": []}` answer is a non-empty body and grants
  access. Only an unparseable body, or one that decodes to a value PHP
  considers empty (`{}`, `[]`, `null`, `false`, `0`, `""`, `"0"`), denies.
- The `email` claim is matched with loose `in_array`, so a boolean `true`
  claim matches any allow-list entry other than `""` and `"0"`.

## Model

| member | source | states |
|---|---|---|
| `ArtisanRequest.Authorize` | src/Http/Requests/ArtisanRequest.php:58-92 | App Engine trust is `Allow`; otherwise an empty token is `Deny`; a `Fault` needs a non-empty token outside App Engine trust (see `AllowNeedsEvidence` and `FaultNeedsUncaughtThrow` for the rest) |
| `ArtisanRequest.TrustedByAppEngine` | src/Http/Requests/ArtisanRequest.php:61-77 | no trust when `GAE_SERVICE` is empty; cron trust needs the cron header and a listed `x-appengine-user-ip`; scheduler trust needs both scheduler headers and applies only when the cron check failed |
| `ArtisanRequest.GetToken` | src/Http/Requests/ArtisanRequest.php:176-183 | a configured name other than `Authorization` reads that header; a token that differs from the configured header's value is the bearer parser's non-empty answer |
| `ArtisanRequest.IsValidJwt` | src/Http/Requests/ArtisanRequest.php:127-145 | a token without three segments is not a JWT; only an `Error` escapes; a JWT has three segments whose first two decode |
| `ArtisanRequest.EmailAllowed` | src/Http/Requests/ArtisanRequest.php:109-115 | an allowed claim set is an object with an `email` member, and the allow-list is non-empty |
| `ArtisanRequest.VerifyJwtToken` | src/Http/Requests/ArtisanRequest.php:100-119 | `Fault` exactly when the key fetch or key-set parse throws, or the JWT library throws an `Error`; `Allow` needs the library to return claims with an allowed `email` for the fetched keys |
| `ArtisanRequest.IamRequest` | src/Http/Requests/ArtisanRequest.php:156-166 | the call goes to the Resource Manager endpoint and carries the token as its bearer credential (see `IamRequestAsksForRequiredPermissions` for the body) |
| `ArtisanRequest.VerifyAccessToken` | src/Http/Requests/ArtisanRequest.php:152-169 | `Fault` exactly when the IAM call throws, so a returned body is `Allow` or `Deny`; `Allow` exactly when the call returns a body that decodes to a value PHP considers non-empty |
| `AuthorizationProperties.OutsideAppEngineOnlyTokenMatters` | src/Http/Requests/ArtisanRequest.php:58-92 | with `GAE_SERVICE` empty, no header is trusted, and two requests that yield the same token get the same verdict |
| `AuthorizationProperties.AppEngineCronAllowed` | src/Http/Requests/ArtisanRequest.php:20-23 | inside App Engine, the cron header plus source address `0.1.0.2` or `0.1.0.1` is `Allow` for every token, configuration and outside answer |
| `AuthorizationProperties.CloudSchedulerAllowed` | src/Http/Requests/ArtisanRequest.php:61-77 | inside App Engine, adding the two scheduler headers with any values gives `Allow`; the scheduler path is taken only when the cron check failed |
| `AuthorizationProperties.BearerWinsUnderAuthorization` | src/Http/Requests/ArtisanRequest.php:176-183 | when the configured header is `Authorization` (the default), whatever the allow-list, a non-empty bearer value is the token, and an empty one leaves the raw `Authorization` header, scheme included |
| `AuthorizationProperties.CustomHeaderIgnoresAuthorization` | src/Http/Requests/ArtisanRequest.php:178-182 | with a custom header filed apart from `Authorization`, rewriting or removing the `Authorization` header, or any answer of the bearer parser, leaves the token unchanged |
| `AuthorizationProperties.LowerCaseConfiguredNameSkipsBearer` | src/Http/Requests/ArtisanRequest.php:178-182 | configured as `authorization`, the token is the whole raw `Authorization` header, because the name comparison is case-sensitive and the lookup is not |
| `AuthorizationProperties.EmptyTokenDenied` | src/Http/Requests/ArtisanRequest.php:79-83 | when no App Engine path applies and the token is `null`, `""` or `"0"`, the verdict is `Deny` whatever the classifier, key, JWT and IAM calls would answer |
| `AuthorizationProperties.NoCredentialDenied` | src/Http/Requests/ArtisanRequest.php:58-83 | no `GAE_SERVICE` and no credential header gives `Deny`, assuming the bearer parser answers `null` for an absent header |
| `AuthorizationProperties.ClassifierNeedsTwoDots` | src/Http/Requests/ArtisanRequest.php:127-132 | a token without exactly two dots is classified as not a JWT |
| `AuthorizationProperties.ClassifierOnThreeSegments` | src/Http/Requests/ArtisanRequest.php:127-145 | on `h.p.s`: true iff both `h` and `p` decode to non-`null` JSON; an `Exception` gives false; an `Error` escapes; `s` is never read |
| `AuthorizationProperties.ThreeSegmentsExplode` | src/Http/Requests/ArtisanRequest.php:128 | splitting `h.p.s` on dots gives exactly `[h, p, s]` when the segments have no dots |
| `AuthorizationProperties.JwtShapedTokenOnlyReachesJwtVerifier` | src/Http/Requests/ArtisanRequest.php:85-88 | a JWT-shaped token gets exactly `verifyJwtToken`'s verdict, and the IAM answer never changes it |
| `AuthorizationProperties.OpaqueTokenOnlyReachesIam` | src/Http/Requests/ArtisanRequest.php:90-91 | any other token gets `verifyAccessToken`'s verdict on the same token, and the key fetch and JWT library never change it |
| `AuthorizationProperties.ThreeSegmentsWithoutJsonHeaderGoToIam` | src/Http/Requests/ArtisanRequest.php:86-91 | a three-segment token whose header segment's decode throws an `Exception`, or whose header decodes to non-JSON while the payload decode throws no `Error`, goes to IAM unchanged |
| `AuthorizationProperties.KeySetFailureIsFault` | src/Http/Requests/ArtisanRequest.php:102-104 | any throw while fetching or parsing the key set, caught kind or not, is `Fault`, never `Allow` |
| `AuthorizationProperties.JwtRejectedByLibrary` | src/Http/Requests/ArtisanRequest.php:107-118 | a token the JWT library rejects is never `Allow`: `Deny` for an `Exception`, `Fault` for an `Error` |
| `AuthorizationProperties.JwtStringEmailVerdict` | src/Http/Requests/ArtisanRequest.php:108-115 | for a verified token with a string `email`: `Allow` iff the address is not `""` or `"0"` and is on the allow-list, else `Deny` |
| `AuthorizationProperties.JwtWithoutEmailDenied` | src/Http/Requests/ArtisanRequest.php:109-113 | a verified token without an `email` claim is denied |
| `AuthorizationProperties.JwtTrueEmailMatchesAnyAccount` | src/Http/Requests/ArtisanRequest.php:115 | with loose `in_array`, an `email` claim of `true` is accepted when the allow-list has an entry other than `""` and `"0"` |
| `AuthorizationProperties.DefaultServiceAccountAllowed` | config/artisan.php:28-42 | with the default configuration, a verified JWT whose `email` is `<project>@appspot.gserviceaccount.com` is authorized |
| `AuthorizationProperties.IamRequestAsksForRequiredPermissions` | src/Http/Requests/ArtisanRequest.php:32-35 | the IAM call is a POST with `Authorization: Bearer <token>` that asks for exactly `cloudscheduler.jobs.run` and `appengine.runtimes.actAsAdmin` |
| `AuthorizationProperties.EitherPermissionSuffices` | src/Http/Requests/ArtisanRequest.php:28-35 | an IAM answer listing either required permission alone grants access |
| `AuthorizationProperties.EmptyBodyDenied` | src/Http/Requests/ArtisanRequest.php:168 | an unparseable body, or one decoding to `{}`, `[]`, `null`, `false`, `0`, `""` or `"0"`, is `Deny` |
| `AuthorizationProperties.NonEmptyObjectBodyGranted` | src/Http/Requests/ArtisanRequest.php:168 | any object body with a member is `Allow` |
| `AuthorizationProperties.EmptyPermissionListGranted` | src/Http/Requests/ArtisanRequest.php:168 | a `{"permissions": []}` answer, which lists no permission, is `Allow` |
| `AuthorizationProperties.AllowNeedsEvidence` | src/Http/Requests/ArtisanRequest.php:58-183 | `Allow` needs one of three things: `GAE_SERVICE` set with the cron header and a listed address or both scheduler headers; the JWT library accepting the token as RS256 against the key set fetched from Google's certs URL, with an allowed `email`; or a non-empty body returned by this token's IAM call |
| `AuthorizationProperties.FaultNeedsUncaughtThrow` | src/Http/Requests/ArtisanRequest.php:86-168 | `Fault` needs an uncaught throw on the path taken: an `Error` decoding the token's first or second segment; for a JWT, the key fetch, the parse of the fetched key set, or a library `Error` on those keys; for any other token, the IAM call |
| `PhpString.Explode` | src/Http/Requests/ArtisanRequest.php:128 | `explode` gives at least one piece, and no piece contains the separator |
| `PhpString.ExplodeCount` | src/Http/Requests/ArtisanRequest.php:128-130 | the number of pieces is one more than the number of separators |
| `PhpString.ImplodeExplode` | src/Http/Requests/ArtisanRequest.php:128 | joining the pieces restores the string |
| `PhpString.ExplodeImplode` | src/Http/Requests/ArtisanRequest.php:128 | separator-free pieces survive a join followed by a split |
| `PhpJson.LastMember` | src/Http/Requests/ArtisanRequest.php:109 | property lookup finds the last member with that name, and finds none iff no member has it |
| `PhpJson.Property` | src/Http/Requests/ArtisanRequest.php:109 | `$claims->email` exists iff the claims are an object with an `email` member |
| `PhpJson.StringInArrayLoose` | src/Http/Requests/ArtisanRequest.php:115 | for a string value, loose `in_array` is plain membership |
| `PhpJson.TrueInArrayLoose` | src/Http/Requests/ArtisanRequest.php:115 | `true` is loosely in any list that has a string other than `""` and `"0"` |
| `HttpRequest.Canon` | src/Http/Requests/ArtisanRequest.php:63-76 | header keys keep their length, contain no upper-case letter and no `_`, read `_` as `-`, and keep every other character, so names that differ elsewhere stay apart |
| `Php.Empty` | src/Http/Requests/ArtisanRequest.php:61-81 | no contract of its own: PHP `empty()` on a string or `null`, true for `null`, `""` and `"0"`; its meaning is carried by `EmptyTokenDenied`, `BearerWinsUnderAuthorization` and `OutsideAppEngineOnlyTokenMatters` |
| `Php.InArray` | src/Http/Requests/ArtisanRequest.php:65 | no contract of its own: the `in_array` of the source address against the cron list; carried by `AppEngineCronAllowed` and `AllowNeedsEvidence` |
| `PhpJson.DecodedIsEmpty` | src/Http/Requests/ArtisanRequest.php:168 | no contract of its own: `empty(json_decode(…, $assoc))`, where an object is empty only in assoc mode; carried by `VerifyAccessToken`, `EmptyBodyDenied`, `NonEmptyObjectBodyGranted` and `JwtStringEmailVerdict` |
| `PhpJson.LooselyEqualsString` | src/Http/Requests/ArtisanRequest.php:115 | no contract of its own: PHP's loose `==` between a decoded value and a non-numeric string; carried by `StringInArrayLoose` and `TrueInArrayLoose` |
| `PhpJson.InArrayLoose` | src/Http/Requests/ArtisanRequest.php:115 | no contract of its own: loose `in_array` of the `email` claim; carried by `StringInArrayLoose`, `TrueInArrayLoose`, `JwtStringEmailVerdict` and `JwtTrueEmailMatchesAnyAccount` |
| `HttpRequest.Header` | src/Http/Requests/ArtisanRequest.php:182 | no contract of its own: `header()` looks the canonical key up; carried by `HeaderIgnoresSpelling`, `LowerCaseConfiguredNameSkipsBearer` and `CustomHeaderIgnoresAuthorization` |
| `HttpRequest.HasHeader` | src/Http/Requests/ArtisanRequest.php:64-73 | no contract of its own: `hasHeader()` is presence whatever the value; carried by `AppEngineCronAllowed` and `CloudSchedulerAllowed` |
| `HttpRequest.HeaderOr` | src/Http/Requests/ArtisanRequest.php:178 | no contract of its own: the `Authorization` value, or `""`, that the bearer parser reads; carried by `BearerWinsUnderAuthorization` and `NoCredentialDenied` |
| `HttpRequest.HeaderIgnoresSpelling` | src/Http/Requests/ArtisanRequest.php:182 | looking a header up by a name or by its canonical key gives the same value |

## Left out

- The network is not modelled. The Google certificates fetch and the
  Cloud Resource Manager POST are results passed in, as returned values or
  throws, and so are their timeouts.
- Library internals are not modelled, because their code is not part of
  this model:
  - RSA signature checking, key selection and claim-time checks inside
    `JWT::decode`;
  - `JWK::parseKeySet`;
  - base64url decoding;
  - JSON text parsing;
  - the framework's bearer-scheme parser.
- The model keeps one value per header, the first, which is what
  `header()` returns. The other values of a multi-valued header are not
  modelled.
- `PhpJson.LooselyEqualsString`: numbers compare unequal to every string.
  This is exact for the non-numeric strings on the allow-list (e-mail
  addresses). It does not model comparisons with numeric strings.
- `Php.InArray`: the source-address check uses exact string equality. PHP's
  loose comparison would differ only if both sides were numeric strings,
  and the listed addresses are not numeric strings.
- Key-set caching is not modelled. The code fetches the keys on every call
  and keeps no cache.
- Command execution and queueing (`ArtisanController`), and route and
  configuration registration (`ArtisanServiceProvider`), are not part of
  this model.
- A configured authorization header of `null` is not modelled. The
  configuration value is a string.

=== FILE: artisan_request.dfy ===
/** The authorization decision of the `ArtisanRequest` form request: may
    this HTTP call run an Artisan command?

    Everything the decision reads is an argument: the request, the package
    configuration, and `Oracles`, the results of the calls it makes into
    code outside the model (the framework's bearer-token parser, the JWT
    library, JSON parsing, and the two network calls). A call that throws
    past every `catch` makes the decision `Fault`. */
module ArtisanRequest {
  import opened Php
  import opened PhpString
  import opened PhpJson
  import opened HttpRequest

  /** Source addresses App Engine cron requests come from; the second is
      used by gcloud releases older than 326.0.0. */
  const APPENGINE_CRON_IPS: seq<string> := ["0.1.0.2", "0.1.0.1"]

  /** Permissions asked of IAM; holding any one of them is enough. */
  const REQUIRED_PERMISSIONS: seq<string> := ["cloudscheduler.jobs.run", "appengine.runtimes.actAsAdmin"]

  /** Header App Engine sets on cron requests. */
  const APPENGINE_CRON_HEADER: string := "x-appengine-cron"

  const RESOURCE_MANAGER_ENDPOINT: string := "https://cloudresourcemanager.googleapis.com/v3/projects/"

  /** Where Google publishes the keys that sign its ID tokens. */
  const GOOGLE_CERTS_URL: string := "https://www.googleapis.com/oauth2/v3/certs"

  /** The only signature algorithm the JWT library is allowed to accept. */
  const JWT_ALGORITHMS: seq<string> := ["RS256"]

  /** The configuration the decision reads: `artisan.authorization_header`,
      `artisan.authorized_service_accounts` and the `GOOGLE_CLOUD_PROJECT`
      environment variable. */
  datatype Config = Config(
    authorizationHeader: string,
    authorizedServiceAccounts: seq<string>,
    googleCloudProject: Option<string>)

  /** The package defaults: credentials in `Authorization`, and only the
      project's default App Engine service account allowed. */
  function DefaultConfig(project: Option<string>): Config {
    Config("Authorization", [OrEmpty(project) + "@appspot.gserviceaccount.com"], project)
  }

  /** A parsed JSON Web Key Set: key identifier to public key. */
  type KeySet = map<string, string>

  /** An outgoing HTTP request: verb, URL, headers and JSON body. */
  datatype Outbound = Outbound(verb: string, url: string, headers: seq<(string, string)>, body: Json)

  /** What the calls outside the model answer.
      - `bearerToken`: the framework's bearer-scheme parser, applied to the
        value of the `Authorization` header (or `""` when it is absent);
      - `urlsafeB64Decode`: `JWT::urlsafeB64Decode`;
      - `jsonParse`: what `json_decode` parses a text to (`JNull` for a
        syntax error, since PHP returns `null` then);
      - `fetch`: `file_get_contents` of a URL, which throws on failure under
        the framework's error handler;
      - `parseKeySet`: `JWK::parseKeySet` on the decoded key-set document;
      - `jwtDecode`: `JWT::decode` of a token with a key set and the allowed
        algorithms, giving the token's claims;
      - `send`: the HTTP client sending a request, giving the response body
        (it throws on a transport failure or a non-2xx status). */
  datatype Oracles = Oracles(
    bearerToken: string -> Option<string>,
    urlsafeB64Decode: string -> Call<string>,
    jsonParse: string -> Json,
    fetch: string -> Call<string>,
    parseKeySet: Json -> Call<KeySet>,
    jwtDecode: (string, KeySet, seq<string>) -> Call<Json>,
    send: Outbound -> Call<string>)

  /** The decision: the method returned true, returned false, or threw. */
  datatype Verdict = Allow | Deny | Fault

  /** The two ways App Engine itself vouches for a request. */
  datatype EnvTrust = AppEngineCron | CloudScheduler

  /** The App Engine checks at the top of `authorize`. They apply only when
      `GAE_SERVICE` is non-empty; the cron check (header present and the
      reported source address on the list) comes before the Cloud
      Scheduler check (two headers present, values ignored). */
  function TrustedByAppEngine(r: Request): (trust: Option<EnvTrust>)
    ensures Empty(r.gaeService) ==> trust == None
    ensures trust == Some(AppEngineCron) ==>
      HasHeader(r, APPENGINE_CRON_HEADER) && InArray(Header(r, "x-appengine-user-ip"), APPENGINE_CRON_IPS)
    ensures trust == Some(CloudScheduler) ==>
      HasHeader(r, "x-cloudscheduler") && HasHeader(r, "x-google-internal-skipadmincheck") &&
      !(HasHeader(r, APPENGINE_CRON_HEADER) && InArray(Header(r, "x-appengine-user-ip"), APPENGINE_CRON_IPS))
  {
    if Empty(r.gaeService) then None
    else if HasHeader(r, APPENGINE_CRON_HEADER) && InArray(Header(r, "x-appengine-user-ip"), APPENGINE_CRON_IPS) then
      Some(AppEngineCron)
    else if HasHeader(r, "x-cloudscheduler") && HasHeader(r, "x-google-internal-skipadmincheck") then
      Some(CloudScheduler)
    else None
  }

  /** `getToken`: the bearer token when the configured header is exactly
      `Authorization` and a non-empty bearer token is present, otherwise
      the raw value of the configured header. */
  function GetToken(r: Request, cfg: Config, o: Oracles): (token: Option<string>)
    ensures cfg.authorizationHeader != "Authorization" ==> token == Header(r, cfg.authorizationHeader)
    ensures token == Header(r, cfg.authorizationHeader) || !Empty(token)
    ensures token != Header(r, cfg.authorizationHeader) ==> token == o.bearerToken(HeaderOr(r, "Authorization", ""))
  {
    var bearer := o.bearerToken(HeaderOr(r, "Authorization", ""));
    if cfg.authorizationHeader == "Authorization" && !Empty(bearer) then bearer
    else Header(r, cfg.authorizationHeader)
  }

  /** `isValidJwt`: three dot-separated segments whose first two decode to
      JSON other than `null`. An `Exception` from decoding means false; an
      `Error` is not caught and propagates. */
  function IsValidJwt(token: string, o: Oracles): (valid: Call<bool>)
    ensures |Explode('.', token)| != 3 ==> valid == Returns(false)
    ensures valid.Throws? ==> valid.thrown == Error
    ensures valid == Returns(true) ==>
      var parts := Explode('.', token);
      |parts| == 3 && o.urlsafeB64Decode(parts[0]).Returns? && o.urlsafeB64Decode(parts[1]).Returns?
  {
    var parts := Explode('.', token);
    if |parts| != 3 then Returns(false)
    else
      match o.urlsafeB64Decode(parts[0])
      case Throws(Error) => Throws(Error)
      case Throws(Exception) => Returns(false)
      case Returns(header) =>
        match o.urlsafeB64Decode(parts[1])
        case Throws(Error) => Throws(Error)
        case Throws(Exception) => Returns(false)
        case Returns(payload) =>
          Returns(!o.jsonParse(header).JNull? && !o.jsonParse(payload).JNull?)
  }

  /** Whether the claims of a decoded token name an allowed account: the
      `email` claim is present, not empty, and loosely in the allow-list.
      A missing claim raises a warning that becomes a caught exception. */
  predicate EmailAllowed(claims: Json, accounts: seq<string>): (allowed: bool)
    ensures allowed ==> claims.JObject? && exists i :: 0 <= i < |claims.members| && claims.members[i].0 == "email"
    ensures allowed ==> accounts != []
  {
    var email := Property(claims, "email");
    email.Some? && !DecodedIsEmpty(email.value, false) && InArrayLoose(email.value, accounts)
  }

  /** `verifyJwtToken`. The key set is fetched and parsed outside the
      `try`, so any failure there is a `Fault`; inside it, an `Exception`
      from `JWT::decode` is a denial and an `Error` still escapes. */
  function VerifyJwtToken(token: string, cfg: Config, o: Oracles): (v: Verdict)
    ensures v == Fault <==>
      o.fetch(GOOGLE_CERTS_URL).Throws? ||
      o.parseKeySet(o.jsonParse(o.fetch(GOOGLE_CERTS_URL).value)).Throws? ||
      o.jwtDecode(token, o.parseKeySet(o.jsonParse(o.fetch(GOOGLE_CERTS_URL).value)).value, JWT_ALGORITHMS) == Throws(Error)
    ensures v == Allow ==>
      o.fetch(GOOGLE_CERTS_URL).Returns? &&
      o.parseKeySet(o.jsonParse(o.fetch(GOOGLE_CERTS_URL).value)).Returns? &&
      var keys := o.parseKeySet(o.jsonParse(o.fetch(GOOGLE_CERTS_URL).value)).value;
      o.jwtDecode(token, keys, JWT_ALGORITHMS).Returns? &&
      EmailAllowed(o.jwtDecode(token, keys, JWT_ALGORITHMS).value, cfg.authorizedServiceAccounts)
  {
    match o.fetch(GOOGLE_CERTS_URL)
    case Throws(_) => Fault
    case Returns(keysText) =>
      match o.parseKeySet(o.jsonParse(keysText))
      case Throws(_) => Fault
      case Returns(keys) =>
        match o.jwtDecode(token, keys, JWT_ALGORITHMS)
        case Throws(Error) => Fault
        case Throws(Exception) => Deny
        case Returns(claims) =>
          if EmailAllowed(claims, cfg.authorizedServiceAccounts) then Allow else Deny
  }

  /** The `testIamPermissions` call `verifyAccessToken` makes for a token. */
  function IamRequest(token: string, cfg: Config): (req: Outbound)
    ensures |RESOURCE_MANAGER_ENDPOINT| <= |req.url| && req.url[..|RESOURCE_MANAGER_ENDPOINT|] == RESOURCE_MANAGER_ENDPOINT
    ensures |req.headers| == 2 && req.headers[1] == ("Authorization", "Bearer " + token)
  {
    Outbound(
      "POST",
      RESOURCE_MANAGER_ENDPOINT + OrEmpty(cfg.googleCloudProject) + ":testIamPermissions",
      [("Accept", "application/json"), ("Authorization", "Bearer " + token)],
      JObject([("permissions", JArray([JString(REQUIRED_PERMISSIONS[0]), JString(REQUIRED_PERMISSIONS[1])]))]))
  }

  /** `verifyAccessToken`: nothing is caught, so a failed call is a
      `Fault`; otherwise the verdict is whether the whole decoded response
      body is non-empty. */
  function VerifyAccessToken(token: string, cfg: Config, o: Oracles): (v: Verdict)
    ensures v == Fault <==> o.send(IamRequest(token, cfg)).Throws?
    ensures v == Allow <==>
      o.send(IamRequest(token, cfg)).Returns? &&
      !DecodedIsEmpty(o.jsonParse(o.send(IamRequest(token, cfg)).value), true)
  {
    match o.send(IamRequest(token, cfg))
    case Throws(_) => Fault
    case Returns(body) => if DecodedIsEmpty(o.jsonParse(body), true) then Deny else Allow
  }

  /** `authorize`: App Engine trust first, then the token, classified as a
      JWT or not and handed to exactly one verifier. The access-token path
      reads the token a second time, as the source does. */
  function Authorize(r: Request, cfg: Config, o: Oracles): (v: Verdict)
    ensures TrustedByAppEngine(r).Some? ==> v == Allow
    ensures TrustedByAppEngine(r) == None && Empty(GetToken(r, cfg, o)) ==> v == Deny
    ensures v == Fault ==> TrustedByAppEngine(r) == None && !Empty(GetToken(r, cfg, o))
  {
    if TrustedByAppEngine(r).Some? then Allow
    else
      var token := GetToken(r, cfg, o);
      if Empty(token) then Deny
      else
        match IsValidJwt(token.value, o)
        case Throws(_) => Fault
        case Returns(true) => VerifyJwtToken(token.value, cfg, o)
        case Returns(false) => VerifyAccessToken(GetToken(r, cfg, o).value, cfg, o)
  }
}

=== FILE: authorization_properties.dfy ===
/** What the authorization decision guarantees, and where it is weaker
    than one might expect. Every lemma holds for all requests, all
    configurations and all answers of the calls outside the model. */
module AuthorizationProperties {
  import opened Php
  import opened PhpString
  import opened PhpJson
  import opened HttpRequest
  import opened ArtisanRequest

  // ---------------------------------------------------------------------
  // App Engine trust
  // ---------------------------------------------------------------------

  /** Without `GAE_SERVICE` no header is trusted: the verdict depends on
      the request only through the token extracted from it. */
  lemma OutsideAppEngineOnlyTokenMatters(r1: Request, r2: Request, cfg: Config, o: Oracles)
    requires Empty(r1.gaeService) && Empty(r2.gaeService)
    requires GetToken(r1, cfg, o) == GetToken(r2, cfg, o)
    ensures TrustedByAppEngine(r1) == None
    ensures Authorize(r1, cfg, o) == Authorize(r2, cfg, o)
  {
  }

  /** Inside App Engine, the cron header together with a listed source
      address grants access whatever the token, the configuration and the
      answers of every outside call. */
  lemma AppEngineCronAllowed(r: Request, cfg: Config, o: Oracles)
    requires !Empty(r.gaeService)
    requires HasHeader(r, APPENGINE_CRON_HEADER)
    requires Header(r, "x-appengine-user-ip") == Some("0.1.0.2") || Header(r, "x-appengine-user-ip") == Some("0.1.0.1")
    ensures TrustedByAppEngine(r) == Some(AppEngineCron)
    ensures Authorize(r, cfg, o) == Allow
  {
  }

  /** Inside App Engine, the two Cloud Scheduler headers grant access
      whatever their values; this path is taken only when the cron check
      has failed. */
  lemma CloudSchedulerAllowed(r: Request, cfg: Config, o: Oracles, scheduler: string, skipAdminCheck: string)
    requires !Empty(r.gaeService)
    ensures var r' := r.(headers := r.headers[Canon("x-cloudscheduler") := scheduler][Canon("x-google-internal-skipadmincheck") := skipAdminCheck]);
      TrustedByAppEngine(r').Some? && Authorize(r', cfg, o) == Allow
    ensures TrustedByAppEngine(r) == Some(CloudScheduler) ==>
      !(HasHeader(r, APPENGINE_CRON_HEADER) && InArray(Header(r, "x-appengine-user-ip"), APPENGINE_CRON_IPS))
  {
  }

  // ---------------------------------------------------------------------
  // Credential extraction
  // ---------------------------------------------------------------------

  /** With the header name `Authorization` (the default, whatever the
      allow-list), a non-empty bearer value is the token; an empty one
      leaves the raw `Authorization` header, scheme prefix included, as
      the token. */
  lemma BearerWinsUnderAuthorization(r: Request, cfg: Config, o: Oracles)
    requires cfg.authorizationHeader == "Authorization"
    ensures var bearer := o.bearerToken(HeaderOr(r, "Authorization", ""));
      && (!Empty(bearer) ==> GetToken(r, cfg, o) == bearer)
      && (Empty(bearer) ==> GetToken(r, cfg, o) == Header(r, "Authorization"))
  {
  }

  /** With a custom header that the header bag files apart from
      `Authorization`, the `Authorization` header and the bearer parser
      have no say: rewriting that header or answering the parser
      differently leaves the token unchanged. */
  lemma CustomHeaderIgnoresAuthorization(r: Request, cfg: Config, o: Oracles, v: string, bearer: string -> Option<string>)
    requires Canon(cfg.authorizationHeader) != Canon("Authorization")
    ensures GetToken(r.(headers := r.headers[Canon("Authorization") := v]), cfg, o) == GetToken(r, cfg, o)
    ensures GetToken(r.(headers := r.headers - {Canon("Authorization")}), cfg, o) == GetToken(r, cfg, o)
    ensures GetToken(r, cfg, o.(bearerToken := bearer)) == GetToken(r, cfg, o)
  {
  }

  /** The configured name is compared case-sensitively while the header
      lookup is not: configured as `authorization`, the token is the whole
      raw `Authorization` header, scheme prefix included, even when it
      carries a bearer token. */
  lemma LowerCaseConfiguredNameSkipsBearer(r: Request, cfg: Config, o: Oracles)
    requires cfg.authorizationHeader == "authorization"
    ensures GetToken(r, cfg, o) == Header(r, "Authorization")
  {
    assert Canon("authorization") == Canon("Authorization");
  }

  /** With no credential outside the App Engine paths, the request is
      denied and neither verifier is reached: no answer of any outside
      call other than the bearer parser changes the verdict. */
  lemma EmptyTokenDenied(
    r: Request, cfg: Config, o: Oracles,
    b64: string -> Call<string>, parse: string -> Json, fetch: string -> Call<string>,
    keySet: Json -> Call<KeySet>, decode: (string, KeySet, seq<string>) -> Call<Json>, send: Outbound -> Call<string>)
    requires TrustedByAppEngine(r) == None
    requires Empty(GetToken(r, cfg, o))
    ensures Authorize(r, cfg, o) == Deny
    ensures Authorize(r, cfg, o.(urlsafeB64Decode := b64, jsonParse := parse, fetch := fetch,
                                parseKeySet := keySet, jwtDecode := decode, send := send)) == Deny
  {
  }

  /** A request with no credential header and no App Engine signal is
      denied. The third requirement is an assumption about the framework's
      bearer parser, which the model takes as a parameter: with the header
      absent it parses `""`, which holds no `Bearer ` prefix, and so it
      answers `null`. */
  lemma NoCredentialDenied(r: Request, cfg: Config, o: Oracles)
    requires Empty(r.gaeService)
    requires Header(r, cfg.authorizationHeader) == None
    requires cfg.authorizationHeader == "Authorization" ==> Empty(o.bearerToken(HeaderOr(r, "Authorization", "")))
    ensures Authorize(r, cfg, o) == Deny
  {
  }

  // ---------------------------------------------------------------------
  // Token-shape classification
  // ---------------------------------------------------------------------

  /** A token that does not contain exactly two dots is never taken for a
      JWT, whatever its segments decode to. */
  lemma ClassifierNeedsTwoDots(token: string, o: Oracles)
    requires multiset(token)['.'] != 2
    ensures IsValidJwt(token, o) == Returns(false)
  {
    ExplodeCount('.', token);
  }

  /** On a token of the compact JWS shape `h.p.s` the classifier answers
      from the first two segments only: true exactly when both decode and
      parse to JSON other than `null`; an `Exception` while decoding gives
      false, an `Error` escapes; the signature segment is never read. */
  lemma ClassifierOnThreeSegments(h: string, p: string, s: string, s': string, o: Oracles)
    requires '.' !in h && '.' !in p && '.' !in s && '.' !in s'
    ensures var v := IsValidJwt(h + "." + p + "." + s, o);
      var dh, dp := o.urlsafeB64Decode(h), o.urlsafeB64Decode(p);
      && (v == Returns(true) <==>
            dh.Returns? && dp.Returns? && !o.jsonParse(dh.value).JNull? && !o.jsonParse(dp.value).JNull?)
      && (v.Throws? <==> dh == Throws(Error) || (dh.Returns? && dp == Throws(Error)))
      && (dh == Throws(Exception) || (dh.Returns? && dp == Throws(Exception)) ==> v == Returns(false))
    ensures IsValidJwt(h + "." + p + "." + s, o) == IsValidJwt(h + "." + p + "." + s', o)
  {
    ThreeSegmentsExplode(h, p, s);
    ThreeSegmentsExplode(h, p, s');
  }

  /** Splitting `h.p.s` on dots gives back the three segments. */
  lemma ThreeSegmentsExplode(h: string, p: string, s: string)
    requires '.' !in h && '.' !in p && '.' !in s
    ensures Explode('.', h + "." + p + "." + s) == [h, p, s]
  {
    var parts := [h, p, s];
    assert Implode('.', [s]) == s;
    assert [p, s][1..] == [s];
    assert Implode('.', [p, s]) == p + ['.'] + s;
    assert parts[1..] == [p, s];
    assert Implode('.', parts) == h + ['.'] + (p + ['.'] + s);
    assert h + ['.'] + (p + ['.'] + s) == h + "." + p + "." + s;
    ExplodeImplode('.', parts);
  }

  // ---------------------------------------------------------------------
  // Dispatch
  // ---------------------------------------------------------------------

  /** A JWT-shaped token gets exactly the JWT verifier's verdict; what the
      IAM endpoint would answer does not matter. */
  lemma JwtShapedTokenOnlyReachesJwtVerifier(r: Request, cfg: Config, o: Oracles, send: Outbound -> Call<string>)
    requires TrustedByAppEngine(r) == None
    requires !Empty(GetToken(r, cfg, o))
    requires IsValidJwt(GetToken(r, cfg, o).value, o) == Returns(true)
    ensures Authorize(r, cfg, o) == VerifyJwtToken(GetToken(r, cfg, o).value, cfg, o)
    ensures Authorize(r, cfg, o.(send := send)) == Authorize(r, cfg, o)
  {
  }

  /** Any other token goes, unchanged, to the access-token verifier; the
      key fetch and the JWT library are not consulted. */
  lemma OpaqueTokenOnlyReachesIam(
    r: Request, cfg: Config, o: Oracles,
    fetch: string -> Call<string>, keySet: Json -> Call<KeySet>, decode: (string, KeySet, seq<string>) -> Call<Json>)
    requires TrustedByAppEngine(r) == None
    requires !Empty(GetToken(r, cfg, o))
    requires IsValidJwt(GetToken(r, cfg, o).value, o) == Returns(false)
    ensures Authorize(r, cfg, o) == VerifyAccessToken(GetToken(r, cfg, o).value, cfg, o)
    ensures Authorize(r, cfg, o.(fetch := fetch, parseKeySet := keySet, jwtDecode := decode)) == Authorize(r, cfg, o)
  {
  }

  /** A three-segment token whose header segment is not base64url JSON is
      treated as an access token and sent to IAM as it is. */
  lemma ThreeSegmentsWithoutJsonHeaderGoToIam(r: Request, cfg: Config, o: Oracles, h: string, p: string, s: string)
    requires '.' !in h && '.' !in p && '.' !in s
    requires TrustedByAppEngine(r) == None
    requires GetToken(r, cfg, o) == Some(h + "." + p + "." + s)
    requires o.urlsafeB64Decode(h) == Throws(Exception) ||
             (o.urlsafeB64Decode(h).Returns? && o.jsonParse(o.urlsafeB64Decode(h).value).JNull? && o.urlsafeB64Decode(p) != Throws(Error))
    ensures Authorize(r, cfg, o) == VerifyAccessToken(h + "." + p + "." + s, cfg, o)
  {
    ClassifierOnThreeSegments(h, p, s, s, o);
  }

  // ---------------------------------------------------------------------
  // The JWT verifier
  // ---------------------------------------------------------------------

  /** The key set is fetched and parsed outside the `try`: whatever is
      thrown there, caught kind or not, is a fault and never a grant. */
  lemma KeySetFailureIsFault(token: string, cfg: Config, o: Oracles)
    requires o.fetch(GOOGLE_CERTS_URL).Throws? ||
             o.parseKeySet(o.jsonParse(o.fetch(GOOGLE_CERTS_URL).value)).Throws?
    ensures VerifyJwtToken(token, cfg, o) == Fault
  {
  }

  /** Once the keys are loaded, a token the JWT library rejects with an
      `Exception` (bad signature, wrong algorithm, expired) is denied; an
      `Error` from the library escapes as a fault. */
  lemma JwtRejectedByLibrary(token: string, cfg: Config, o: Oracles, keys: KeySet)
    requires o.fetch(GOOGLE_CERTS_URL).Returns?
    requires o.parseKeySet(o.jsonParse(o.fetch(GOOGLE_CERTS_URL).value)) == Returns(keys)
    requires o.jwtDecode(token, keys, JWT_ALGORITHMS).Throws?
    ensures VerifyJwtToken(token, cfg, o) != Allow
    ensures VerifyJwtToken(token, cfg, o) == Deny <==> o.jwtDecode(token, keys, JWT_ALGORITHMS).thrown == Exception
  {
  }

  /** For a verified token with a string `email` claim the verdict is
      Allow exactly when the address is non-empty and on the allow-list,
      and Deny otherwise. */
  lemma JwtStringEmailVerdict(token: string, cfg: Config, o: Oracles, keys: KeySet, claims: Json, email: string)
    requires o.fetch(GOOGLE_CERTS_URL).Returns?
    requires o.parseKeySet(o.jsonParse(o.fetch(GOOGLE_CERTS_URL).value)) == Returns(keys)
    requires o.jwtDecode(token, keys, JWT_ALGORITHMS) == Returns(claims)
    requires Property(claims, "email") == Some(JString(email))
    ensures VerifyJwtToken(token, cfg, o) != Fault
    ensures VerifyJwtToken(token, cfg, o) == Allow <==>
      email != "" && email != "0" && email in cfg.authorizedServiceAccounts
  {
  }

  /** A verified token without an `email` claim is denied. */
  lemma JwtWithoutEmailDenied(token: string, cfg: Config, o: Oracles, keys: KeySet, claims: Json)
    requires o.fetch(GOOGLE_CERTS_URL).Returns?
    requires o.parseKeySet(o.jsonParse(o.fetch(GOOGLE_CERTS_URL).value)) == Returns(keys)
    requires o.jwtDecode(token, keys, JWT_ALGORITHMS) == Returns(claims)
    requires claims.JObject? ==> forall i :: 0 <= i < |claims.members| ==> claims.members[i].0 != "email"
    ensures VerifyJwtToken(token, cfg, o) == Deny
  {
  }

  /** The allow-list check is PHP's loose `in_array`: a verified token
      whose `email` claim is the boolean `true` is accepted as soon as
      the allow-list holds one entry other than `""` and `"0"`. */
  lemma JwtTrueEmailMatchesAnyAccount(token: string, cfg: Config, o: Oracles, keys: KeySet, claims: Json, i: nat)
    requires o.fetch(GOOGLE_CERTS_URL).Returns?
    requires o.parseKeySet(o.jsonParse(o.fetch(GOOGLE_CERTS_URL).value)) == Returns(keys)
    requires o.jwtDecode(token, keys, JWT_ALGORITHMS) == Returns(claims)
    requires Property(claims, "email") == Some(JBool(true))
    requires i < |cfg.authorizedServiceAccounts| && !Empty(Some(cfg.authorizedServiceAccounts[i]))
    ensures VerifyJwtToken(token, cfg, o) == Allow
  {
  }

  /** With the package defaults, a JWT-shaped token that the library
      accepts and whose `email` is the project's App Engine service account
      is authorized. */
  lemma DefaultServiceAccountAllowed(r: Request, o: Oracles, project: Option<string>, keys: KeySet, claims: Json)
    requires TrustedByAppEngine(r) == None
    requires !Empty(GetToken(r, DefaultConfig(project), o))
    requires IsValidJwt(GetToken(r, DefaultConfig(project), o).value, o) == Returns(true)
    requires o.fetch(GOOGLE_CERTS_URL).Returns?
    requires o.parseKeySet(o.jsonParse(o.fetch(GOOGLE_CERTS_URL).value)) == Returns(keys)
    requires o.jwtDecode(GetToken(r, DefaultConfig(project), o).value, keys, JWT_ALGORITHMS) == Returns(claims)
    requires Property(claims, "email") == Some(JString(OrEmpty(project) + "@appspot.gserviceaccount.com"))
    ensures Authorize(r, DefaultConfig(project), o) == Allow
  {
    var cfg := DefaultConfig(project);
    var email := OrEmpty(project) + "@appspot.gserviceaccount.com";
    assert |email| > 1;
    JwtStringEmailVerdict(GetToken(r, cfg, o).value, cfg, o, keys, claims, email);
  }

  // ---------------------------------------------------------------------
  // The access-token verifier
  // ---------------------------------------------------------------------

  /** The IAM call is a POST carrying the token as a bearer credential and
      asking for exactly the two required permissions. */
  lemma IamRequestAsksForRequiredPermissions(token: string, cfg: Config)
    ensures IamRequest(token, cfg).verb == "POST"
    ensures ("Authorization", "Bearer " + token) in IamRequest(token, cfg).headers
    ensures Property(IamRequest(token, cfg).body, "permissions").Some?
    ensures var asked := Property(IamRequest(token, cfg).body, "permissions").value;
      asked.JArray? && |asked.items| == |REQUIRED_PERMISSIONS| &&
      forall i :: 0 <= i < |REQUIRED_PERMISSIONS| ==> asked.items[i] == JString(REQUIRED_PERMISSIONS[i])
  {
  }

  /** The permissions are an "or" list: an answer listing either required
      permission alone grants access. */
  lemma EitherPermissionSuffices(token: string, cfg: Config, o: Oracles, body: string, held: string)
    requires held in REQUIRED_PERMISSIONS
    requires o.send(IamRequest(token, cfg)) == Returns(body)
    requires o.jsonParse(body) == JObject([("permissions", JArray([JString(held)]))])
    ensures VerifyAccessToken(token, cfg, o) == Allow
  {
  }

  /** IAM's answer for a token that holds neither permission, `{}`, is a
      denial, and so is an unparseable body and every other body that
      decodes to a value PHP considers empty. */
  lemma EmptyBodyDenied(token: string, cfg: Config, o: Oracles, body: string)
    requires o.send(IamRequest(token, cfg)) == Returns(body)
    requires o.jsonParse(body) in {JObject([]), JNull, JArray([]), JBool(false), JNumber(0.0), JString(""), JString("0")}
    ensures VerifyAccessToken(token, cfg, o) == Deny
  {
  }

  /** Any body that parses to an object with a member grants access,
      whatever the member says. */
  lemma NonEmptyObjectBodyGranted(token: string, cfg: Config, o: Oracles, body: string)
    requires o.send(IamRequest(token, cfg)) == Returns(body)
    requires o.jsonParse(body).JObject? && o.jsonParse(body).members != []
    ensures VerifyAccessToken(token, cfg, o) == Allow
  {
  }

  /** The weak spot of the body check: an answer that lists no permission
      at all, `{"permissions": []}`, still grants access. */
  lemma EmptyPermissionListGranted(token: string, cfg: Config, o: Oracles, body: string)
    requires o.send(IamRequest(token, cfg)) == Returns(body)
    requires o.jsonParse(body) == JObject([("permissions", JArray([]))])
    ensures VerifyAccessToken(token, cfg, o) == Allow
  {
  }

  // ---------------------------------------------------------------------
  // Fail-closed
  // ---------------------------------------------------------------------

  /** Allow has a witness: App Engine vouched for the request through
      `GAE_SERVICE` and its headers, or the JWT library accepted the token
      as RS256 against the key set fetched from Google and its `email` is
      allowed, or IAM answered this token's call with a non-empty body. */
  lemma AllowNeedsEvidence(r: Request, cfg: Config, o: Oracles)
    requires Authorize(r, cfg, o) == Allow
    ensures
      || (&& !Empty(r.gaeService)
          && (|| (HasHeader(r, APPENGINE_CRON_HEADER) &&
                  (Header(r, "x-appengine-user-ip") == Some("0.1.0.2") || Header(r, "x-appengine-user-ip") == Some("0.1.0.1")))
              || (HasHeader(r, "x-cloudscheduler") && HasHeader(r, "x-google-internal-skipadmincheck"))))
      || (&& !Empty(GetToken(r, cfg, o))
          && var token := GetToken(r, cfg, o).value;
             || (&& IsValidJwt(token, o) == Returns(true)
                 && o.fetch(GOOGLE_CERTS_URL).Returns?
                 && var keys := o.parseKeySet(o.jsonParse(o.fetch(GOOGLE_CERTS_URL).value));
                    && keys.Returns?
                    && o.jwtDecode(token, keys.value, JWT_ALGORITHMS).Returns?
                    && EmailAllowed(o.jwtDecode(token, keys.value, JWT_ALGORITHMS).value, cfg.authorizedServiceAccounts))
             || (&& IsValidJwt(token, o) == Returns(false)
                 && o.send(IamRequest(token, cfg)).Returns?
                 && !DecodedIsEmpty(o.jsonParse(o.send(IamRequest(token, cfg)).value), true)))
  {
  }

  /** A fault comes only from a throw that no `catch` takes, on the path
      the token's classification selects: an `Error` decoding the first or
      second segment; or, for a JWT, the key fetch, the parse of the
      fetched key set, or an `Error` from the library on those keys; or,
      for any other token, the IAM call. App Engine trust never faults. */
  lemma FaultNeedsUncaughtThrow(r: Request, cfg: Config, o: Oracles)
    requires Authorize(r, cfg, o) == Fault
    ensures TrustedByAppEngine(r) == None && !Empty(GetToken(r, cfg, o))
    ensures var token := GetToken(r, cfg, o).value;
      var parts := Explode('.', token);
      match IsValidJwt(token, o)
      case Throws(_) =>
        |parts| == 3 &&
        (o.urlsafeB64Decode(parts[0]) == Throws(Error) ||
         (o.urlsafeB64Decode(parts[0]).Returns? && o.urlsafeB64Decode(parts[1]) == Throws(Error)))
      case Returns(true) =>
        o.fetch(GOOGLE_CERTS_URL).Throws? ||
        var keys := o.parseKeySet(o.jsonParse(o.fetch(GOOGLE_CERTS_URL).value));
        keys.Throws? || o.jwtDecode(token, keys.value, JWT_ALGORITHMS) == Throws(Error)
      case Returns(false) =>
        o.send(IamRequest(token, cfg)).Throws?
  {
  }
}

=== FILE: http_request.dfy ===
/** The parts of the incoming framework request the authorization reads:
    the `GAE_SERVICE` server variable and the header bag. */
module HttpRequest {
  import opened Php

  /** One incoming request. `headers` is the framework's header bag: it is
      keyed by canonical header names (see `Canon`) and holds the first
      value of each header. */
  datatype Request = Request(gaeService: Option<string>, headers: map<string, string>)

  /** The header bag folds ASCII upper case to lower case and `_` to `-`. */
  function CanonChar(c: char): char {
    if 'A' <= c <= 'Z' then (c as int + 32) as char
    else if c == '_' then '-'
    else c
  }

  /** The key under which the header bag files a header name. */
  function Canon(name: string): (key: string)
    ensures |key| == |name|
    ensures forall i :: 0 <= i < |key| ==> key[i] !in "ABCDEFGHIJKLMNOPQRSTUVWXYZ_"
    ensures forall i :: 0 <= i < |name| && name[i] !in "ABCDEFGHIJKLMNOPQRSTUVWXYZ_" ==> key[i] == name[i]
    ensures forall i :: 0 <= i < |name| && name[i] == '_' ==> key[i] == '-'
  {
    seq(|name|, i requires 0 <= i < |name| => CanonChar(name[i]))
  }

  /** `$request->header($name)`: the header's value, or `null`. */
  function Header(r: Request, name: string): Option<string> {
    var key := Canon(name);
    if key in r.headers then Some(r.headers[key]) else None
  }

  /** `$request->header($name, $default)`. */
  function HeaderOr(r: Request, name: string, default: string): string {
    var v := Header(r, name);
    if v.Some? then v.value else default
  }

  /** `$request->hasHeader($name)`: the header is present, whatever its value. */
  predicate HasHeader(r: Request, name: string) {
    Header(r, name).Some?
  }

  /** Canonical names are their own canonical form. */
  lemma CanonIdempotent(name: string)
    ensures Canon(Canon(name)) == Canon(name)
  {
  }

  /** Header lookup ignores letter case and the `_`/`-` distinction: asking
      by a name and by its canonical key gives the same answer. */
  lemma HeaderIgnoresSpelling(r: Request, name: string)
    ensures Header(r, Canon(name)) == Header(r, name)
  {
    CanonIdempotent(name);
  }
}

=== FILE: php.dfy ===
/** The few PHP runtime notions the authorization code relies on:
    nullable strings, `empty()`, strict `in_array` on strings, and calls
    that either return a value or throw. */
module Php {

  /** A PHP value that may be `null`. */
  datatype Option<+T> = None | Some(value: T)

  /** PHP splits throwables into two families: `Exception`, which
      `catch (Exception $e)` catches, and `Error` (TypeError and friends),
      which it does not. */
  datatype Throwable = Exception | Error

  /** The outcome of a call into code outside the model. */
  datatype Call<+T> = Returns(value: T) | Throws(thrown: Throwable)

  /** PHP `empty()` on a string-or-null value: `null`, `""` and `"0"`. */
  predicate Empty(v: Option<string>) {
    v.None? || v.value == "" || v.value == "0"
  }

  /** A string-or-null used where PHP concatenates it: `null` reads as `""`. */
  function OrEmpty(v: Option<string>): string {
    if v.Some? then v.value else ""
  }

  /** `in_array($v, $xs)` for a string-or-null against a list of
      non-numeric strings: `null` equals none of them, a string only itself. */
  predicate InArray(v: Option<string>, xs: seq<string>) {
    v.Some? && v.value in xs
  }

}

=== FILE: php_json.dfy ===
/** JSON documents as `json_decode` sees them, and the PHP operations the
    authorization code applies to what it decodes: `empty()`, property
    access and loose `in_array`. Parsing text into a document is not part
    of this module: the decoder is a parameter of the model. */
module PhpJson {
  import opened Php

  /** A parsed JSON document. Object members keep their order and any
      repeated names, as they appear in the text. */
  datatype Json =
    | JNull
    | JBool(b: bool)
    | JNumber(n: real)
    | JString(s: string)
    | JArray(items: seq<Json>)
    | JObject(members: seq<(string, Json)>)

  /** PHP `empty()` applied to `json_decode($text, $assoc)` when the text
      parses to `j`. Falsy scalars are empty; a JSON array is empty when it
      has no items; a JSON object becomes an associative array in `assoc`
      mode (empty when it has no members) and a `stdClass` object otherwise
      (never empty). A syntax error decodes to `null`, so it is `JNull`. */
  predicate DecodedIsEmpty(j: Json, assoc: bool) {
    match j
    case JNull => true
    case JBool(b) => !b
    case JNumber(n) => n == 0.0
    case JString(s) => s == "" || s == "0"
    case JArray(items) => items == []
    case JObject(members) => assoc && members == []
  }

  /** The value of the last member named `name`: a repeated name in a JSON
      object overwrites the earlier one when PHP decodes it. */
  function LastMember(members: seq<(string, Json)>, name: string): (v: Option<Json>)
    ensures v.None? <==> forall i :: 0 <= i < |members| ==> members[i].0 != name
    ensures v.Some? ==>
      exists i :: 0 <= i < |members| && members[i] == (name, v.value) &&
        forall k :: i < k < |members| ==> members[k].0 != name
    decreases |members|
  {
    if members == [] then None
    else if members[|members| - 1].0 == name then Some(members[|members| - 1].1)
    else LastMember(members[..|members| - 1], name)
  }

  /** `$object->name` on a decoded value: `None` when the value is not an
      object or has no such property (PHP raises a warning there). */
  function Property(j: Json, name: string): (v: Option<Json>)
    ensures v.Some? <==> j.JObject? && exists i :: 0 <= i < |j.members| && j.members[i].0 == name
  {
    if j.JObject? then LastMember(j.members, name) else None
  }

  /** PHP's loose `==` between a decoded JSON value (in `stdClass` mode)
      and a string that is not numeric: a string compares exactly, a boolean
      compares with the string's truth value, `null` equals only `""`, and
      numbers, arrays and objects equal no such string. */
  predicate LooselyEqualsString(v: Json, s: string) {
    match v
    case JString(t) => t == s
    case JBool(b) => b == !Empty(Some(s))
    case JNull => s == ""
    case _ => false
  }

  /** Loose `in_array($v, $xs)`. */
  predicate InArrayLoose(v: Json, xs: seq<string>) {
    exists i :: 0 <= i < |xs| && LooselyEqualsString(v, xs[i])
  }

  /** A decoded string is loosely in a list exactly when it is in it. */
  lemma StringInArrayLoose(t: string, xs: seq<string>)
    ensures InArrayLoose(JString(t), xs) <==> t in xs
  {
  }

  /** The weak spot of the loose comparison: `true` matches every list
      that holds a string PHP considers non-empty. */
  lemma TrueInArrayLoose(xs: seq<string>, i: nat)
    requires i < |xs| && !Empty(Some(xs[i]))
    ensures InArrayLoose(JBool(true), xs)
  {
  }
}

=== FILE: php_string.dfy ===
/** PHP's `explode` and `implode` on a one-character separator, and the
    facts about them that the token classifier depends on. */
module PhpString {

  /** `explode(sep, s)`: the pieces of `s` between occurrences of `sep`.
      There is always at least one piece (`explode('.', "")` is `[""]`),
      and no piece contains the separator. */
  function Explode(sep: char, s: string): (parts: seq<string>)
    ensures |parts| >= 1
    ensures forall i :: 0 <= i < |parts| ==> sep !in parts[i]
    decreases |s|
  {
    if s == [] then [""]
    else
      var rest := Explode(sep, s[1..]);
      if s[0] == sep then [""] + rest
      else [[s[0]] + rest[0]] + rest[1..]
  }

  /** `implode(sep, parts)`: the pieces joined with `sep` between them. */
  function Implode(sep: char, parts: seq<string>): string
    decreases |parts|
  {
    if parts == [] then ""
    else if |parts| == 1 then parts[0]
    else parts[0] + [sep] + Implode(sep, parts[1..])
  }

  /** Every separator in `s` starts a new piece: the number of pieces is
      one more than the number of separators. */
  lemma {:induction false} ExplodeCount(sep: char, s: string)
    ensures |Explode(sep, s)| == multiset(s)[sep] + 1
    decreases |s|
  {
    if s != [] {
      ExplodeCount(sep, s[1..]);
      assert s == [s[0]] + s[1..];
      assert multiset(s) == multiset([s[0]]) + multiset(s[1..]);
    }
  }

  /** Joining the pieces back restores the string: `explode` loses nothing. */
  lemma {:induction false} ImplodeExplode(sep: char, s: string)
    ensures Implode(sep, Explode(sep, s)) == s
    decreases |s|
  {
    if s != [] {
      ImplodeExplode(sep, s[1..]);
      var rest := Explode(sep, s[1..]);
      if s[0] == sep {
        assert ([""] + rest)[1..] == rest;
        assert s == [sep] + s[1..];
      } else {
        ImplodeConsHead(sep, s[0], rest);
        assert s == [s[0]] + s[1..];
      }
    }
  }

  /** Prepending a character to the first piece prepends it to the join. */
  lemma ImplodeConsHead(sep: char, c: char, parts: seq<string>)
    requires |parts| >= 1
    ensures Implode(sep, [[c] + parts[0]] + parts[1..]) == [c] + Implode(sep, parts)
  {
  }

  /** A string without the separator explodes into itself alone. */
  lemma {:induction false} ExplodeWithoutSeparator(sep: char, p: string)
    requires sep !in p
    ensures Explode(sep, p) == [p]
    decreases |p|
  {
    if p != [] {
      ExplodeWithoutSeparator(sep, p[1..]);
      assert p == [p[0]] + p[1..];
    }
  }

  /** A separator-free first piece followed by the separator is split off
      as the first piece. */
  lemma {:induction false} ExplodeAfterPiece(sep: char, p: string, rest: string)
    requires sep !in p
    ensures Explode(sep, p + [sep] + rest) == [p] + Explode(sep, rest)
    decreases |p|
  {
    var s := p + [sep] + rest;
    if p == [] {
      assert s == [sep] + rest;
      assert s[1..] == rest;
    } else {
      assert s[1..] == p[1..] + [sep] + rest;
      ExplodeAfterPiece(sep, p[1..], rest);
      assert p == [p[0]] + p[1..];
    }
  }

  /** The other round trip: pieces that do not contain the separator come
      back unchanged from a join followed by a split. */
  lemma {:induction false} ExplodeImplode(sep: char, parts: seq<string>)
    requires |parts| >= 1
    requires forall i :: 0 <= i < |parts| ==> sep !in parts[i]
    ensures Explode(sep, Implode(sep, parts)) == parts
    decreases |parts|
  {
    if |parts| == 1 {
      ExplodeWithoutSeparator(sep, parts[0]);
    } else {
      ExplodeImplode(sep, parts[1..]);
      ExplodeAfterPiece(sep, parts[0], Implode(sep, parts[1..]));
      assert parts == [parts[0]] + parts[1..];
    }
  }
}
